=== FILE: README.md ===
# Query filters of the vulnerability manager, in Dafny

This project models `manager/base/filters.go` of the vuln4shift backend. That file turns the
filters parsed from a listing request's query string into clauses on a gorm query:

- a substring search;
- a publish-date range, a severity set and a CVSS score range;
- the two "affecting" filters, which are still stubs;
- paging (limit and offset);
- sorting.

`ApplyFilters` applies the requested filters that an endpoint allows, in the endpoint's order, and
stops at the first error.

The gorm query builder is replaced by a clause log, `QueryLog.DB`. It holds a sequence of WHERE
predicates with their parameters, a sequence of ORDER BY terms, and an optional limit and offset.
`Where`, `Order`, `Limit` and `Offset` append to or set those fields, and `Snapshot()` reads them
as a `Log` value.

Every filter is one `Filters.Filter` object. It holds the raw query parameter, the raw values and
the parsed value, which is a `FilterKind` with one variant per Go filter type.
`Filter.ApplyQuery` dispatches on the kind. Seven of the nine Go `ApplyQuery` methods have a method
of their own: search, publish date, severity, CVSS score, limit, offset and sort. The two
affecting-* stubs only return no error, so they are inline branches of the dispatch. Each method
changes the `DB` in place, and the sort filter also appends to the filter's own raw values.
`ApplySort` is proved equal to `FilterSpec.SortEffect`, and the other per-kind methods state their
clause directly. `ApplyQuery` is proved equal to `FilterSpec.Effect`, a function from the filter's
kind, its old raw values, the old log and the controller arguments to the error, the new log and
the new raw values. The properties of the filters are lemmas about
`Effect`, and most of them are about the sort filter.

The sort filter (`FilterSpec.SortEffect`, `Filters.Filter.ApplySort`) behaves as follows:

- Each user item is mapped through the controller's whitelist, in request order.
- The first unknown column stops the filter with "invalid sort column selected".
- The controller's defaults are then appended in configured order. Defaults the whitelist does
  not know are skipped silently.
- Each applied default is echoed into the raw values, as `-column` when descending.

The sort filter is not atomic. When a user column is unknown, the call has already emitted the
ORDER BY terms for the whitelisted user items before it, and those terms stay in the query.
`SortErrorKeepsEarlierTerms` states exactly which terms remain.

In the search filter, the `ExposedClustersSearch` mode searches CVE names and descriptions. The
`CveSearch` mode searches cluster UUIDs. The model keeps this pairing as the code has it.

`ApplyFilters` is specified by `Filters.Run`, a fold over the allowed names, with a reference
definition next to it. `RunSeq` applies `Selected`, the requested filters of the allowed names in
allowed order. The state threads every filter's raw values as a map from filter object to
values, because the same filter object may be requested under two names.

## Model

| member | source | states |
|---|---|---|
| FilterSpec.SortArgsOf | manager/base/filters.go:206-211 | the sort configuration is present exactly when `args` has the `sort_filter` key and it holds a `SortArgs`; an absent key or a value of another type both give none |
| FilterSpec.SearchPattern | manager/base/filters.go:78 | the search pattern is the term with one `%` before and one after it |
| FilterSpec.SearchClause | manager/base/filters.go:77-89 | a predicate is added exactly when the search mode is `ExposedClustersSearch` or `CveSearch`; `ExposedClustersSearch` gives the name/description LIKE predicate and `CveSearch` the `cluster.uuid` LIKE predicate; the name/description predicate binds the `%term%` pattern twice and the `cluster.uuid` predicate once; any other mode or an absent key adds nothing |
| Filters.Filter.ApplySearch | manager/base/filters.go:77-89 | search never fails; it adds the predicate `SearchClause` chooses, or leaves the query unchanged when there is none |
| Filters.Filter.ApplyPublishDate | manager/base/filters.go:100-103 | never fails; adds exactly the inclusive public-date range predicate with the two dates as parameters and changes nothing else |
| Filters.Filter.ApplySeverity | manager/base/filters.go:113-116 | never fails; adds exactly the `cve.severity IN ?` predicate with the requested levels and changes nothing else |
| Filters.Filter.ApplyCvssScore | manager/base/filters.go:127-130 | never fails; adds exactly the inclusive CVSS range predicate (v3 score, falling back to v2) with both bounds and changes nothing else |
| Filters.Filter.ApplyLimit | manager/base/filters.go:162-165 | never fails; sets the limit to the filter's value and changes nothing else |
| Filters.Filter.ApplyOffset | manager/base/filters.go:175-178 | never fails; sets the offset to the filter's value and changes nothing else |
| FilterSpec.Effect | manager/base/filters.go:77-240 | every filter's `ApplyQuery` as a function: a filter other than sort succeeds without ordering or echoing, and an error comes only from the sort filter, with "invalid sort column selected" |
| FilterSpec.EffectShape | manager/base/filters.go:77-240 | the two affecting-* filters succeed and change neither the query nor the raw values; only the sort filter can fail, order or echo; every filter adds at most one WHERE predicate and only appends; only the limit and offset filters change the limit and offset; the only error is "invalid sort column selected" |
| Filters.Filter.ApplyQuery | manager/base/filters.go:39-44 | applying a filter changes the query and the filter's raw values exactly as `Effect` of its kind says and returns its error |
| FilterSpec.OrderTerm | manager/base/filters.go:216-220 | the ORDER BY term is the SQL expression followed by ` DESC NULLS LAST` or ` ASC NULLS LAST`, and it reads back as exactly that expression and direction |
| Filters.OrderByColumn | manager/base/filters.go:216-220 | one `Order` call appends exactly the term for the expression and direction, touching nothing else |
| FilterSpec.KnownPrefix | manager/base/filters.go:213-224 | the result is the index of the first user item whose column is not whitelisted, or the number of items when all are |
| FilterSpec.Terms | manager/base/filters.go:215-219 | one ORDER BY term per item, in item order, each the whitelisted expression of the item's column with its direction |
| FilterSpec.Applicable | manager/base/filters.go:226-227 | the applied defaults are at most the configured ones and all have a whitelisted column |
| FilterSpec.ApplicableMembers | manager/base/filters.go:226-227 | a default is applied exactly when it is configured and its column is whitelisted |
| FilterSpec.ApplicableAppend | manager/base/filters.go:226-237 | the defaults are applied in configured order: filtering distributes over concatenation |
| FilterSpec.Echo | manager/base/filters.go:229-235 | a descending default is echoed as `-` followed by its column; an ascending one as its column |
| FilterSpec.Echoes | manager/base/filters.go:229-235 | one echo per item, in order, each `-column` when descending and `column` otherwise |
| FilterSpec.EchoRoundTrip | manager/base/filters.go:229-235 | for a column that does not itself start with `-`, an echoed default reads back, by the leading-`-` convention, as the same column and direction |
| FilterSpec.SortEffect | manager/base/filters.go:206-240 | the sort filter as a function: without a configuration it changes nothing; its only error is "invalid sort column selected", and a failing call echoes nothing |
| FilterSpec.SortEffectShape | manager/base/filters.go:206-240 | without a sort configuration the sort filter succeeds and changes nothing; it only appends ORDER BY terms and raw values; it fails exactly when some user column is not whitelisted, and then with "invalid sort column selected" and no echo |
| FilterSpec.SortSuccessOrders | manager/base/filters.go:213-224 | on success every user column is whitelisted and the first new terms are the user items' terms in request order; the number of new terms is the user items plus the applied defaults |
| FilterSpec.SortSuccessDefaultOrders | manager/base/filters.go:226-237 | on success the terms after the user ones are the applied defaults' terms in configured order |
| FilterSpec.SortSuccessUnfold | manager/base/filters.go:213-237 | on success the ORDER BY list is the old list, then the user items' terms, then the applied defaults' terms |
| FilterSpec.SortErrorKeepsEarlierTerms | manager/base/filters.go:213-224 | on failure the first unknown user column is the cause; exactly the terms of the whitelisted user items before it have been emitted; no default is applied and the raw values are unchanged |
| FilterSpec.SortOnlyWhitelisted | manager/base/filters.go:213-237 | every ORDER BY term the sort filter emits is a whitelisted expression with a direction, so no user text reaches the ORDER BY clause |
| FilterSpec.UnknownDefaultSkipped | manager/base/filters.go:226-237 | a default whose column is not whitelisted makes no difference at all: same terms, same echoes, same outcome as without it |
| FilterSpec.SortEchoesAppliedDefaults | manager/base/filters.go:229-235 | on success the raw values are the old ones followed by one echo per applied default in order; user items are never echoed, so the echo is the same as with no user items |
| Filters.Filter.ApplySort | manager/base/filters.go:206-240 | the sort method's error, query and raw values are exactly `SortEffect` of its items, the configuration and the old state |
| Filters.OrderByItems | manager/base/filters.go:213-224 | the user loop reports success exactly when all columns are whitelisted and appends the terms of the whitelisted prefix |
| Filters.Filter.OrderByDefaults | manager/base/filters.go:226-237 | the default loop appends the applied defaults' terms and their echoes and changes nothing else |
| Filters.Filter.RawQueryName | manager/base/filters.go:55-57 | the name is the raw query parameter |
| Filters.Filter.RawQueryVal | manager/base/filters.go:60-62 | the query value is the comma join of the raw values: empty for no values, and splitting it at commas gives the values back when none contains a comma |
| Filters.Filter.RawQueryVals | manager/base/filters.go:65-67 | the values are the raw values |
| Strings.SplitJoin | manager/base/filters.go:61 | joining values that contain no separator and splitting at the separator gives the values back |
| Filters.Apply | manager/base/filters.go:258-259 | applying one filter keeps every other filter's raw values |
| Filters.Run | manager/base/filters.go:255-265 | ApplyFilters as a function keeps the set of filters whose raw values it threads |
| Filters.Selected | manager/base/filters.go:256-257 | the filters visited are at most one per allowed name and are all requested filters |
| Filters.SelectedMembers | manager/base/filters.go:256-257 | a filter is visited exactly when some allowed name requests it |
| Filters.UnallowedIgnored | manager/base/filters.go:256-257 | a requested name that is not allowed changes nothing: the same filters are visited without it |
| Filters.RunIsRunSeq | manager/base/filters.go:255-265 | ApplyFilters applies exactly the selected filters, in allowed order, stopping at the first error |
| Filters.RunSeq | manager/base/filters.go:258-263 | applying a list of filters keeps the set of filters whose raw values it threads |
| Filters.RunSeqAppend | manager/base/filters.go:258-263 | after a failing filter nothing else runs: running `a + b` is running `a`, then `b` only if `a` succeeded |
| Filters.RunSeqErrors | manager/base/filters.go:259-262 | a failing run fails with "invalid sort column selected", and some filter in the list is a sort filter |
| Filters.RunSeqFailingSort | manager/base/filters.go:258-262 | a failing run fails at a sort filter: every filter before it succeeded, the run ends in exactly the state that sort filter produced from them, and the error is "invalid sort column selected" |
| Filters.RunSeqFailingPosition | manager/base/filters.go:258-262 | a failing run has a failing position: every filter before it succeeds and the run ends in exactly the state that filter produced, so nothing after it ran |
| Filters.ApplyFilters | manager/base/filters.go:255-265 | the returned error, the query and every requested filter's raw values are exactly those of `Run` from the old state |
| Filters.ApplyRequested | manager/base/filters.go:258-262 | one loop step changes the query and the raw values exactly as `Apply` of that filter says |

## Left out

- `GetRequestedFilters` reads the parsed filters from the gin request context. That is framework plumbing, so `ApplyFilters` takes the requested filters as a map.
- gorm itself is not modelled: no SQL is built or run. `QueryLog.DB` records the `Where`, `Order`, `Limit` and `Offset` calls the filters make.
- The dates of the publish-date filter are integers standing for `time.Time` instants. The CVSS bounds are reals, not `float32`, so rounding is not modelled. Severity levels are opaque names standing for `models.Severity`. The model only says which parameters each predicate carries.
- Filters.Filter.ApplyLimit: does not model the `uint64`-to-`int` conversion before `tx.Limit`, which wraps for values above the platform's `int` range; the value is recorded unchanged.
- Filters.Filter.ApplyOffset: does not model the `uint64`-to-`int` conversion before `tx.Offset`, for the same reason.
- The `Filter` interface and its nine struct types are one class with a `FilterKind` value, dispatched by a `match`. The embedded `RawFilter` is the class's `rawParam` and `rawValues` fields.
- The `map[string]interface{}` arguments are a map to `ArgValue`, which distinguishes a string, a `SortArgs` and anything else. A Go type assertion becomes a variant test. Comparing the search mode against a string constant becomes equality with `Str(...)`.
- Filters.Filter.RawQueryVals: returns a copy of the raw values, not the filter's own slice. In the code a caller that writes into the returned slice changes the filter's raw values and what `RawQueryVal` joins later. Nothing in filters.go writes through it.
- Filters.Filter.RawQueryVal: the round trip is stated only for values without a comma. `strings.Join` is not injective when a value contains the separator.
- Apart from `SearchQuery`, which the search filter uses as the key of its controller argument (`FilterSpec.SearchQuery`), the query parameter name constants (`published`, `severity`, ...) and `DateFormat` are not used in filters.go. The parser of the query string lives outside this file and is not part of this model. `FilterSpec.ParseSortToken` assumes that request format's leading-`-` convention for descending sort items.

=== FILE: filter_spec.dfy ===
/**
  What each query filter of the listing endpoints does to a query, as functions
  on values: the clauses it adds to the query's log, the values it echoes back
  to the client, and the error it can return.
*/
module FilterSpec {
  import opened Wrappers
  import opened QueryLog
  import opened SeqLemmas

  // Keys of the controller arguments map.
  const SearchQuery := "search"
  const SortFilterArgs := "sort_filter"

  // The two search modes a controller can select under SearchQuery.
  const CveSearch := "CveSearch"
  const ExposedClustersSearch := "ExposedClustersSearch"

  const InvalidSortColumn := "invalid sort column selected"

  // The predicates the filters hand to the query builder.
  const NameOrDescriptionLike := "cve.name LIKE ? OR cve.description LIKE ?"
  const ClusterUuidLike := "cluster.uuid LIKE ?"
  const PublicDateBetween := "cve.public_date >= ? AND cve.public_date <= ?"
  const SeverityIn := "cve.severity IN ?"
  const CvssScoreBetween :=
    "COALESCE(cve.cvss3_score, cve.cvss2_score) >= ? AND COALESCE(cve.cvss3_score, cve.cvss2_score) <= ?"

  const AscSuffix := " ASC NULLS LAST"
  const DescSuffix := " DESC NULLS LAST"

  /** One requested ordering: a user-facing column name and its direction. */
  datatype SortItem = SortItem(column: string, desc: bool)

  /**
    A controller's sort configuration: the whitelist from user-facing column
    names to SQL expressions, and the default ordering appended after the user's.
  */
  datatype SortArgs = SortArgs(sortableColumns: map<string, string>, defaultSortable: seq<SortItem>)

  /** A value of the controller's `map[string]interface{}`, by dynamic type. */
  datatype ArgValue = Str(s: string) | SortConfig(config: SortArgs) | Other

  type Args = map<string, ArgValue>

  /** The parsed value each kind of filter carries besides its raw parameter and values. */
  datatype FilterKind =
    | Search(term: string)
    | CvePublishDate(dateFrom: int, dateTo: int)
    | Severity(levels: seq<SeverityLevel>)
    | CvssScore(scoreFrom: real, scoreTo: real)
    | AffectingClusters(oneOrMore: bool, none: bool)
    | AffectingImages(oneOrMore: bool, none: bool)
    | Limit(limit: nat)
    | Offset(offset: nat)
    | Sort(items: seq<SortItem>)

  /** The result of applying one filter: its error, the query log after it, and its raw values after it. */
  datatype Step = Step(err: Outcome, log: Log, raw: seq<string>)

  /** The type assertion `args[SortFilterArgs].(SortArgs)`: None when the key is absent or holds something else. */
  function SortArgsOf(args: Args): (r: Option<SortArgs>)
    ensures r.Some? <==> SortFilterArgs in args && args[SortFilterArgs].SortConfig?
    ensures r.Some? ==> args[SortFilterArgs] == SortConfig(r.value)
  {
    if SortFilterArgs in args && args[SortFilterArgs].SortConfig? then Some(args[SortFilterArgs].config) else None
  }

  // ---------------------------------------------------------------- search

  /** The LIKE pattern matching any text that contains `term`. */
  function SearchPattern(term: string): (p: string)
    ensures |p| == |term| + 2 && p[0] == '%' && p[|p| - 1] == '%' && p[1..|p| - 1] == term
  {
    "%" + term + "%"
  }

  /**
    The predicate the search filter adds, chosen by the search mode under
    SearchQuery; an absent key, a non-string or an unknown mode adds none.
  */
  function SearchClause(term: string, args: Args): (c: Option<Clause>)
    ensures c.Some? <==>
      SearchQuery in args && (args[SearchQuery] == Str(ExposedClustersSearch) || args[SearchQuery] == Str(CveSearch))
    ensures c.Some? ==>
      && |c.value.params| == (if c.value.sql == NameOrDescriptionLike then 2 else 1)
      && (forall i :: 0 <= i < |c.value.params| ==> c.value.params[i] == Text(SearchPattern(term)))
      && (c.value.sql == NameOrDescriptionLike <==> args[SearchQuery] == Str(ExposedClustersSearch))
      && (c.value.sql == ClusterUuidLike <==> args[SearchQuery] == Str(CveSearch))
  {
    var regex := SearchPattern(term);
    if SearchQuery !in args then None
    else if args[SearchQuery] == Str(ExposedClustersSearch) then
      Some(Clause(NameOrDescriptionLike, [Text(regex), Text(regex)]))
    else if args[SearchQuery] == Str(CveSearch) then
      Some(Clause(ClusterUuidLike, [Text(regex)]))
    else None
  }

  // ---------------------------------------------------------------- sort

  /** Reads an ORDER BY term back into its expression and direction. */
  function ParseOrderTerm(t: string): (r: Option<(string, bool)>)
  {
    if |t| >= |DescSuffix| && t[|t| - |DescSuffix|..] == DescSuffix then Some((t[..|t| - |DescSuffix|], true))
    else if |t| >= |AscSuffix| && t[|t| - |AscSuffix|..] == AscSuffix then Some((t[..|t| - |AscSuffix|], false))
    else None
  }

  /**
    The ORDER BY term for a SQL expression: NULLs always last, whatever the
    direction. The term determines its expression and its direction.
  */
  function OrderTerm(expr: string, desc: bool): (t: string)
    ensures ParseOrderTerm(t) == Some((expr, desc))
  {
    SuffixedTermParses(expr, desc);
    expr + (if desc then DescSuffix else AscSuffix)
  }

  /** An expression followed by a direction suffix parses back into that expression and direction. */
  lemma SuffixedTermParses(expr: string, desc: bool)
    ensures ParseOrderTerm(expr + (if desc then DescSuffix else AscSuffix)) == Some((expr, desc))
  {
    var t := expr + (if desc then DescSuffix else AscSuffix);
    if !desc {
      if |t| >= |DescSuffix| {
        // The D of " DESC" would sit where the A of " ASC" is.
        assert t[|t| - |AscSuffix| + 1] == AscSuffix[1] == 'A';
        assert t[|t| - |DescSuffix|..][2] == t[|t| - |AscSuffix| + 1];
      }
      assert t[|t| - |AscSuffix|..] == AscSuffix;
      assert t[..|t| - |AscSuffix|] == expr;
    } else {
      assert t[|t| - |DescSuffix|..] == DescSuffix;
      assert t[..|t| - |DescSuffix|] == expr;
    }
  }

  /** How an applied default is echoed into the raw values: `-column` when descending. */
  function Echo(item: SortItem): (e: string)
    ensures item.desc ==> |e| == |item.column| + 1 && e[0] == '-' && e[1..] == item.column
    ensures !item.desc ==> e == item.column
  {
    if item.desc then "-" + item.column else item.column
  }

  /** The request convention the echo follows: a leading `-` asks for descending order. */
  function ParseSortToken(token: string): (item: SortItem)
  {
    if |token| > 0 && token[0] == '-' then SortItem(token[1..], true) else SortItem(token, false)
  }

  /** An echoed default reads back as the same sort item, unless its column itself starts with `-`. */
  lemma EchoRoundTrip(item: SortItem)
    requires !(|item.column| > 0 && item.column[0] == '-')
    ensures ParseSortToken(Echo(item)) == item
  {
    if item.desc {
      assert ("-" + item.column)[1..] == item.column;
    }
  }

  /** The number of leading items whose column is in the whitelist: the index of the first unknown one, or |items|. */
  function KnownPrefix(items: seq<SortItem>, cols: map<string, string>): (k: nat)
    ensures k <= |items|
    ensures forall i :: 0 <= i < k ==> items[i].column in cols
    ensures k < |items| ==> items[k].column !in cols
    decreases |items|
  {
    if items == [] then 0
    else if items[0].column in cols then 1 + KnownPrefix(items[1..], cols)
    else 0
  }

  /** The ORDER BY terms for whitelisted items, in item order. */
  function Terms(items: seq<SortItem>, cols: map<string, string>): (r: seq<string>)
    requires forall i :: 0 <= i < |items| ==> items[i].column in cols
    ensures |r| == |items|
    ensures forall i :: 0 <= i < |items| ==> r[i] == OrderTerm(cols[items[i].column], items[i].desc)
    decreases |items|
  {
    if items == [] then []
    else
      var last := items[|items| - 1];
      Terms(items[..|items| - 1], cols) + [OrderTerm(cols[last.column], last.desc)]
  }

  /** The defaults that get applied: those whose column is in the whitelist, in configured order. */
  function Applicable(defaults: seq<SortItem>, cols: map<string, string>): (r: seq<SortItem>)
    ensures |r| <= |defaults|
    ensures forall i :: 0 <= i < |r| ==> r[i].column in cols
    decreases |defaults|
  {
    if defaults == [] then []
    else
      var last := defaults[|defaults| - 1];
      Applicable(defaults[..|defaults| - 1], cols) + (if last.column in cols then [last] else [])
  }

  /** The echoes of a list of sort items, in order. */
  function Echoes(items: seq<SortItem>): (r: seq<string>)
    ensures |r| == |items|
    ensures forall i :: 0 <= i < |items| ==> r[i] == Echo(items[i])
    decreases |items|
  {
    if items == [] then [] else Echoes(items[..|items| - 1]) + [Echo(items[|items| - 1])]
  }

  /** Extending the defaults by one item extends the applied defaults by that item exactly when it is whitelisted. */
  lemma ApplicableSnoc(defaults: seq<SortItem>, item: SortItem, cols: map<string, string>)
    ensures Applicable(defaults + [item], cols) == Applicable(defaults, cols) + (if item.column in cols then [item] else [])
  {
    assert (defaults + [item])[..|defaults|] == defaults;
  }

  /** Terms and echoes of a list extended by one item. */
  lemma TermsEchoesSnoc(items: seq<SortItem>, item: SortItem, cols: map<string, string>)
    requires forall i :: 0 <= i < |items| ==> items[i].column in cols
    requires item.column in cols
    ensures Terms(items + [item], cols) == Terms(items, cols) + [OrderTerm(cols[item.column], item.desc)]
    ensures Echoes(items + [item]) == Echoes(items) + [Echo(item)]
  {
    assert (items + [item])[..|items|] == items;
  }

  /** The applied defaults are exactly the configured defaults whose column is whitelisted. */
  lemma {:induction false} ApplicableMembers(defaults: seq<SortItem>, cols: map<string, string>)
    ensures forall x :: x in Applicable(defaults, cols) <==> x in defaults && x.column in cols
    decreases |defaults|
  {
    if defaults != [] {
      var init, last := defaults[..|defaults| - 1], defaults[|defaults| - 1];
      ApplicableMembers(init, cols);
      assert defaults == init + [last];
    }
  }

  /** What one more configured default adds to the applied terms and echoes. */
  lemma DefaultStep(defaults: seq<SortItem>, j: nat, cols: map<string, string>)
    requires j < |defaults|
    ensures var item := defaults[j];
      && Terms(Applicable(defaults[..j + 1], cols), cols)
         == Terms(Applicable(defaults[..j], cols), cols) + (if item.column in cols then [OrderTerm(cols[item.column], item.desc)] else [])
      && Echoes(Applicable(defaults[..j + 1], cols))
         == Echoes(Applicable(defaults[..j], cols)) + (if item.column in cols then [Echo(item)] else [])
  {
    var item := defaults[j];
    assert defaults[..j + 1] == defaults[..j] + [item];
    ApplicableSnoc(defaults[..j], item, cols);
    if item.column in cols {
      TermsEchoesSnoc(Applicable(defaults[..j], cols), item, cols);
    } else {
      var applied := Applicable(defaults[..j], cols);
      AppendNil(applied);
      AppendNil(Terms(applied, cols));
      AppendNil(Echoes(applied));
    }
  }

  /** Filtering the defaults keeps their order: it distributes over concatenation. */
  lemma {:induction false} ApplicableAppend(a: seq<SortItem>, b: seq<SortItem>, cols: map<string, string>)
    ensures Applicable(a + b, cols) == Applicable(a, cols) + Applicable(b, cols)
    decreases |b|
  {
    if b != [] {
      var b' := b[..|b| - 1];
      assert (a + b)[..|a + b| - 1] == a + b';
      ApplicableAppend(a, b', cols);
    } else {
      assert a + b == a;
    }
  }

  /**
    The sort filter: the user's items in request order, then the applicable
    defaults in configured order; echoes only the applied defaults. An unknown
    user column stops it with an error, leaving the terms already emitted.
  */
  function SortEffect(items: seq<SortItem>, config: Option<SortArgs>, raw: seq<string>, log: Log): (s: Step)
    ensures config.None? ==> s == Step(Ok, log, raw)
    ensures s.err.Err? ==> s.err == Err(InvalidSortColumn) && s.raw == raw
  {
    match config
    case None => Step(Ok, log, raw)
    case Some(SortArgs(cols, defaults)) =>
      var k := KnownPrefix(items, cols);
      if k < |items| then
        Step(Err(InvalidSortColumn), log.(orders := log.orders + Terms(items[..k], cols)), raw)
      else
        var applied := Applicable(defaults, cols);
        Step(Ok, log.(orders := log.orders + Terms(items, cols) + Terms(applied, cols)), raw + Echoes(applied))
  }

  /**
    What every sort call guarantees: without a configuration it does nothing;
    it only ever appends ORDER BY terms and raw values; it fails exactly when
    some user column is not whitelisted, and then echoes nothing.
  */
  lemma SortEffectShape(items: seq<SortItem>, config: Option<SortArgs>, raw: seq<string>, log: Log)
    ensures var s := SortEffect(items, config, raw, log);
      && (config.None? ==> s == Step(Ok, log, raw))
      && s.log.wheres == log.wheres && s.log.limit == log.limit && s.log.offset == log.offset
      && log.orders <= s.log.orders && raw <= s.raw
      && (s.err.Err? <==>
            config.Some? && exists i :: 0 <= i < |items| && items[i].column !in config.value.sortableColumns)
      && (s.err.Err? ==> s.err == Err(InvalidSortColumn) && s.raw == raw)
  {
    if config.Some? {
      var cols := config.value.sortableColumns;
      var k := KnownPrefix(items, cols);
      if k < |items| {
        assert items[k].column !in cols;
      }
    }
  }

  /**
    On success, the new ORDER BY terms are one per user item in request order,
    then one per applicable default in configured order, each the whitelisted
    expression with its direction.
  */
  lemma SortSuccessOrders(items: seq<SortItem>, cols: map<string, string>, defaults: seq<SortItem>, raw: seq<string>, log: Log)
    requires SortEffect(items, Some(SortArgs(cols, defaults)), raw, log).err.Ok?
    ensures forall i :: 0 <= i < |items| ==> items[i].column in cols
    ensures
      var s := SortEffect(items, Some(SortArgs(cols, defaults)), raw, log);
      var n := |log.orders|;
      && |s.log.orders| == n + |items| + |Applicable(defaults, cols)|
      && (forall i :: 0 <= i < |items| ==> s.log.orders[n + i] == OrderTerm(cols[items[i].column], items[i].desc))
  {
    SortSuccessUnfold(items, cols, defaults, raw, log);
    var applied := Applicable(defaults, cols);
    var o := SortEffect(items, Some(SortArgs(cols, defaults)), raw, log).log.orders;
    forall i | 0 <= i < |items|
      ensures o[|log.orders| + i] == OrderTerm(cols[items[i].column], items[i].desc)
    {
      UserTermAt(log.orders, items, applied, cols, i);
    }
  }

  /** In the user terms followed by the default terms, the user terms come first. */
  lemma UserTermAt(before: seq<string>, items: seq<SortItem>, applied: seq<SortItem>, cols: map<string, string>, i: int)
    requires forall k :: 0 <= k < |items| ==> items[k].column in cols
    requires forall k :: 0 <= k < |applied| ==> applied[k].column in cols
    requires 0 <= i < |items|
    ensures var o := before + Terms(items, cols) + Terms(applied, cols);
      |o| == |before| + |items| + |applied| && o[|before| + i] == OrderTerm(cols[items[i].column], items[i].desc)
  {
    IndexMiddle(before, Terms(items, cols), Terms(applied, cols), i);
  }

  /** After the user terms, a successful sort emits one term per applicable default, in configured order. */
  lemma SortSuccessDefaultOrders(items: seq<SortItem>, cols: map<string, string>, defaults: seq<SortItem>, raw: seq<string>, log: Log)
    requires SortEffect(items, Some(SortArgs(cols, defaults)), raw, log).err.Ok?
    ensures
      var s := SortEffect(items, Some(SortArgs(cols, defaults)), raw, log);
      var applied := Applicable(defaults, cols);
      var n := |log.orders| + |items|;
      forall j :: 0 <= j < |applied| ==> s.log.orders[n + j] == OrderTerm(cols[applied[j].column], applied[j].desc)
  {
    SortSuccessUnfold(items, cols, defaults, raw, log);
    var applied := Applicable(defaults, cols);
    var o := SortEffect(items, Some(SortArgs(cols, defaults)), raw, log).log.orders;
    forall j | 0 <= j < |applied|
      ensures o[|log.orders| + |items| + j] == OrderTerm(cols[applied[j].column], applied[j].desc)
    {
      DefaultTermAt(log.orders, items, applied, cols, j);
    }
  }

  /** In the user terms followed by the default terms, the default terms start after the user ones. */
  lemma DefaultTermAt(before: seq<string>, items: seq<SortItem>, applied: seq<SortItem>, cols: map<string, string>, j: int)
    requires forall i :: 0 <= i < |items| ==> items[i].column in cols
    requires forall i :: 0 <= i < |applied| ==> applied[i].column in cols
    requires 0 <= j < |applied|
    ensures (before + Terms(items, cols) + Terms(applied, cols))[|before| + |items| + j]
         == OrderTerm(cols[applied[j].column], applied[j].desc)
  {
    IndexLast(before, Terms(items, cols), Terms(applied, cols), j);
  }

  /** A successful sort has a whitelisted column for every user item and emits the user terms, then the default terms. */
  lemma SortSuccessUnfold(items: seq<SortItem>, cols: map<string, string>, defaults: seq<SortItem>, raw: seq<string>, log: Log)
    requires SortEffect(items, Some(SortArgs(cols, defaults)), raw, log).err.Ok?
    ensures forall i :: 0 <= i < |items| ==> items[i].column in cols
    ensures SortEffect(items, Some(SortArgs(cols, defaults)), raw, log).log.orders
         == log.orders + Terms(items, cols) + Terms(Applicable(defaults, cols), cols)
  {
    assert KnownPrefix(items, cols) == |items|;
  }

  /**
    On failure, the first unknown user column is the cause: the terms for the
    user items before it stay emitted, no default is applied and nothing is echoed.
  */
  lemma SortErrorKeepsEarlierTerms(items: seq<SortItem>, cols: map<string, string>, defaults: seq<SortItem>, raw: seq<string>, log: Log)
    requires SortEffect(items, Some(SortArgs(cols, defaults)), raw, log).err.Err?
    ensures
      var s := SortEffect(items, Some(SortArgs(cols, defaults)), raw, log);
      var k := KnownPrefix(items, cols);
      var n := |log.orders|;
      && k < |items| && items[k].column !in cols
      && |s.log.orders| == n + k
      && (forall i :: 0 <= i < k ==> s.log.orders[n + i] == OrderTerm(cols[items[i].column], items[i].desc))
      && s.raw == raw
  {
  }

  /** Every term the sort filter emits is a whitelisted expression with a direction. */
  lemma SortOnlyWhitelisted(items: seq<SortItem>, cols: map<string, string>, defaults: seq<SortItem>, raw: seq<string>, log: Log)
    ensures
      var s := SortEffect(items, Some(SortArgs(cols, defaults)), raw, log);
      forall j :: |log.orders| <= j < |s.log.orders| ==>
        exists c, d :: c in cols && s.log.orders[j] == OrderTerm(cols[c], d)
  {
    var s := SortEffect(items, Some(SortArgs(cols, defaults)), raw, log);
    var n := |log.orders|;
    forall j | n <= j < |s.log.orders|
      ensures exists c, d :: c in cols && s.log.orders[j] == OrderTerm(cols[c], d)
    {
      var k := KnownPrefix(items, cols);
      if k < |items| {
        var it := items[j - n];
        assert s.log.orders[j] == OrderTerm(cols[it.column], it.desc);
      } else if j < n + |items| {
        var it := items[j - n];
        assert s.log.orders[j] == OrderTerm(cols[it.column], it.desc);
      } else {
        var applied := Applicable(defaults, cols);
        var it := applied[j - n - |items|];
        assert s.log.orders[j] == OrderTerm(cols[it.column], it.desc);
      }
    }
  }

  /** A default whose column is not whitelisted changes nothing: no term, no echo, no error. */
  lemma UnknownDefaultSkipped(items: seq<SortItem>, cols: map<string, string>, defaults: seq<SortItem>, i: nat, raw: seq<string>, log: Log)
    requires i < |defaults| && defaults[i].column !in cols
    ensures SortEffect(items, Some(SortArgs(cols, defaults)), raw, log)
         == SortEffect(items, Some(SortArgs(cols, defaults[..i] + defaults[i + 1..])), raw, log)
  {
    var before, after := defaults[..i], defaults[i + 1..];
    assert defaults == before + [defaults[i]] + after;
    assert Applicable([defaults[i]], cols) == [] by {
      assert [defaults[i]][..0] == [];
    }
    calc {
      Applicable(defaults, cols);
      { ApplicableAppend(before + [defaults[i]], after, cols); }
      Applicable(before + [defaults[i]], cols) + Applicable(after, cols);
      { ApplicableAppend(before, [defaults[i]], cols); }
      Applicable(before, cols) + Applicable(after, cols);
      { ApplicableAppend(before, after, cols); }
      Applicable(before + after, cols);
    }
  }

  /**
    On success, the raw values gain one echo per applied default, in order,
    `-column` when descending; the user's items never are echoed, so the echo
    is the one a request without user items gets.
  */
  lemma SortEchoesAppliedDefaults(items: seq<SortItem>, cols: map<string, string>, defaults: seq<SortItem>, raw: seq<string>, log: Log)
    requires SortEffect(items, Some(SortArgs(cols, defaults)), raw, log).err.Ok?
    ensures
      var s := SortEffect(items, Some(SortArgs(cols, defaults)), raw, log);
      var applied := Applicable(defaults, cols);
      && |s.raw| == |raw| + |applied|
      && s.raw[..|raw|] == raw
      && (forall j :: 0 <= j < |applied| ==>
            s.raw[|raw| + j] == if applied[j].desc then "-" + applied[j].column else applied[j].column)
      && s.raw == SortEffect([], Some(SortArgs(cols, defaults)), raw, log).raw
  {
    assert KnownPrefix(items, cols) == |items|;
  }

  // ---------------------------------------------------------------- all filters

  /**
    The effect of one filter's ApplyQuery. Only the sort filter orders, fails
    or echoes; every other filter adds at most one WHERE predicate or sets the
    limit or offset; the two affecting-* filters do nothing.
  */
  function Effect(kind: FilterKind, raw: seq<string>, log: Log, args: Args): (s: Step)
    ensures !kind.Sort? ==> s.err == Ok && s.raw == raw && s.log.orders == log.orders
    ensures s.err.Err? ==> kind.Sort? && s.err == Err(InvalidSortColumn)
  {
    match kind
    case Search(term) =>
      var c := SearchClause(term, args);
      Step(Ok, if c.Some? then log.(wheres := log.wheres + [c.value]) else log, raw)
    case CvePublishDate(from, to) =>
      Step(Ok, log.(wheres := log.wheres + [Clause(PublicDateBetween, [Time(from), Time(to)])]), raw)
    case Severity(levels) =>
      Step(Ok, log.(wheres := log.wheres + [Clause(SeverityIn, [Levels(levels)])]), raw)
    case CvssScore(from, to) =>
      Step(Ok, log.(wheres := log.wheres + [Clause(CvssScoreBetween, [Score(from), Score(to)])]), raw)
    case AffectingClusters(_, _) => Step(Ok, log, raw)
    case AffectingImages(_, _) => Step(Ok, log, raw)
    case Limit(n) => Step(Ok, log.(limit := Some(n)), raw)
    case Offset(n) => Step(Ok, log.(offset := Some(n)), raw)
    case Sort(items) => SortEffect(items, SortArgsOf(args), raw, log)
  }

  /**
    What every filter call guarantees. Only the sort filter orders, fails or
    echoes; every filter adds at most one WHERE predicate; only the limit and
    offset filters set the limit and offset; the two affecting-* filters do
    nothing; the one error is the invalid sort column.
  */
  lemma EffectShape(kind: FilterKind, raw: seq<string>, log: Log, args: Args)
    ensures var s := Effect(kind, raw, log, args);
      && (!kind.Sort? ==> s.err == Ok && s.raw == raw && s.log.orders == log.orders)
      && log.wheres <= s.log.wheres && |s.log.wheres| <= |log.wheres| + 1
      && log.orders <= s.log.orders && raw <= s.raw
      && (s.log.limit != log.limit ==> kind.Limit? && s.log.limit == Some(kind.limit))
      && (s.log.offset != log.offset ==> kind.Offset? && s.log.offset == Some(kind.offset))
      && (kind.AffectingClusters? || kind.AffectingImages? ==> s == Step(Ok, log, raw))
      && (s.err.Err? ==> s.err == Err(InvalidSortColumn))
  {
    if kind.Sort? {
      SortEffectShape(kind.items, SortArgsOf(args), raw, log);
    }
  }
}

=== FILE: filters.dfy ===
/**
  The query filters as the listing endpoints use them: objects holding the raw
  query parameter, its raw values and the parsed value, each applying itself to
  a shared query builder; and ApplyFilters, which applies the requested filters
  an endpoint allows.
*/
module Filters {
  import opened Wrappers
  import opened Strings
  import opened QueryLog
  import opened FilterSpec
  import opened SeqLemmas

  /**
    A filter parsed from one query parameter. The raw parameter and the parsed
    value never change once built; the raw values grow when the sort filter
    echoes the defaults it applied.
  */
  class Filter {
    const rawParam: string
    var rawValues: seq<string>
    const kind: FilterKind

    constructor (param: string, values: seq<string>, kind: FilterKind)
      ensures rawParam == param && rawValues == values && this.kind == kind
    {
      rawParam := param;
      rawValues := values;
      this.kind := kind;
    }

    /** The name of the query parameter the filter came from. */
    function RawQueryName(): (r: string)
      reads this
      ensures r == rawParam
    {
      rawParam
    }

    /** The raw values as one comma-separated query value, which splits back into them. */
    function RawQueryVal(): (r: string)
      reads this
      ensures rawValues == [] ==> r == ""
      ensures |rawValues| >= 1 && (forall i :: 0 <= i < |rawValues| ==> ',' !in rawValues[i]) ==>
                Split(r, ',') == rawValues
    {
      if |rawValues| >= 1 && (forall i :: 0 <= i < |rawValues| ==> ',' !in rawValues[i]) then
        SplitJoin(rawValues, ',');
        Join(rawValues, ",")
      else
        Join(rawValues, ",")
    }

    /** The raw values, as parsed from the query value. */
    function RawQueryVals(): (r: seq<string>)
      reads this
      ensures r == rawValues
    {
      rawValues
    }

    /** Applies the filter to the query, dispatching on its kind. */
    method ApplyQuery(tx: DB, args: Args) returns (err: Outcome)
      modifies this`rawValues, tx
      ensures Step(err, tx.Snapshot(), rawValues) == Effect(kind, old(rawValues), old(tx.Snapshot()), args)
    {
      match kind
      case Search(_) => err := ApplySearch(tx, args);
      case CvePublishDate(_, _) => err := ApplyPublishDate(tx);
      case Severity(_) => err := ApplySeverity(tx);
      case CvssScore(_, _) => err := ApplyCvssScore(tx);
      case AffectingClusters(_, _) => err := Ok;
      case AffectingImages(_, _) => err := Ok;
      case Limit(_) => err := ApplyLimit(tx);
      case Offset(_) => err := ApplyOffset(tx);
      case Sort(_) => err := ApplySort(tx, args);
    }

    /** Search: a LIKE predicate on `%term%`, chosen by the controller's search mode. */
    method ApplySearch(tx: DB, args: Args) returns (err: Outcome)
      requires kind.Search?
      modifies tx
      ensures err == Ok
      ensures tx.Snapshot() ==
        var c := SearchClause(kind.term, args);
        if c.Some? then old(tx.Snapshot()).(wheres := old(tx.wheres) + [c.value]) else old(tx.Snapshot())
    {
      var regex := SearchPattern(kind.term);
      if SearchQuery in args && args[SearchQuery] == Str(ExposedClustersSearch) {
        tx.Where(Clause(NameOrDescriptionLike, [Text(regex), Text(regex)]));
        return Ok;
      } else if SearchQuery in args && args[SearchQuery] == Str(CveSearch) {
        tx.Where(Clause(ClusterUuidLike, [Text(regex)]));
        return Ok;
      }
      return Ok;
    }

    /** Publish date: the public date lies between the two dates, both included. */
    method ApplyPublishDate(tx: DB) returns (err: Outcome)
      requires kind.CvePublishDate?
      modifies tx
      ensures err == Ok
      ensures tx.Snapshot() == old(tx.Snapshot()).(wheres :=
        old(tx.wheres) + [Clause(PublicDateBetween, [Time(kind.dateFrom), Time(kind.dateTo)])])
    {
      tx.Where(Clause(PublicDateBetween, [Time(kind.dateFrom), Time(kind.dateTo)]));
      return Ok;
    }

    /** Severity: the severity is one of the requested levels. */
    method ApplySeverity(tx: DB) returns (err: Outcome)
      requires kind.Severity?
      modifies tx
      ensures err == Ok
      ensures tx.Snapshot() == old(tx.Snapshot()).(wheres := old(tx.wheres) + [Clause(SeverityIn, [Levels(kind.levels)])])
    {
      tx.Where(Clause(SeverityIn, [Levels(kind.levels)]));
      return Ok;
    }

    /** CVSS score: the CVSS v3 score, or the v2 score when there is none, lies in the range, both ends included. */
    method ApplyCvssScore(tx: DB) returns (err: Outcome)
      requires kind.CvssScore?
      modifies tx
      ensures err == Ok
      ensures tx.Snapshot() == old(tx.Snapshot()).(wheres :=
        old(tx.wheres) + [Clause(CvssScoreBetween, [Score(kind.scoreFrom), Score(kind.scoreTo)])])
    {
      tx.Where(Clause(CvssScoreBetween, [Score(kind.scoreFrom), Score(kind.scoreTo)]));
      return Ok;
    }

    /** Limit: the page size. */
    method ApplyLimit(tx: DB) returns (err: Outcome)
      requires kind.Limit?
      modifies tx
      ensures err == Ok
      ensures tx.Snapshot() == old(tx.Snapshot()).(limit := Some(kind.limit))
    {
      tx.Limit(kind.limit);
      return Ok;
    }

    /** Offset: the first row of the page. */
    method ApplyOffset(tx: DB) returns (err: Outcome)
      requires kind.Offset?
      modifies tx
      ensures err == Ok
      ensures tx.Snapshot() == old(tx.Snapshot()).(offset := Some(kind.offset))
    {
      tx.Offset(kind.offset);
      return Ok;
    }

    /**
      Sort: orders by the user's items, then by the controller's defaults that
      the whitelist knows, echoing those defaults into the raw values.
    */
    method ApplySort(tx: DB, args: Args) returns (err: Outcome)
      requires kind.Sort?
      modifies this`rawValues, tx
      ensures Step(err, tx.Snapshot(), rawValues) == SortEffect(kind.items, SortArgsOf(args), old(rawValues), old(tx.Snapshot()))
    {
      var config := SortArgsOf(args);
      if config.None? {
        return Ok;
      }
      var cols, defaults := config.value.sortableColumns, config.value.defaultSortable;
      var known := OrderByItems(tx, kind.items, cols);
      if !known {
        return Err(InvalidSortColumn);
      }
      assert kind.items[..|kind.items|] == kind.items;
      OrderByDefaults(tx, defaults, cols);
      return Ok;
    }

    /**
      The second half of the sort filter: one term per default the whitelist
      knows, in configured order, each echoed into the raw values.
    */
    method OrderByDefaults(tx: DB, defaults: seq<SortItem>, cols: map<string, string>)
      modifies this`rawValues, tx
      ensures tx.wheres == old(tx.wheres) && tx.limit == old(tx.limit) && tx.offset == old(tx.offset)
      ensures tx.orders == old(tx.orders) + Terms(Applicable(defaults, cols), cols)
      ensures rawValues == old(rawValues) + Echoes(Applicable(defaults, cols))
    {
      ghost var log0, raw0 := tx.Snapshot(), rawValues;
      AppendNil(log0.orders);
      AppendNil(raw0);
      var j := 0;
      while j < |defaults|
        invariant 0 <= j <= |defaults|
        invariant tx.wheres == log0.wheres && tx.limit == log0.limit && tx.offset == log0.offset
        invariant tx.orders == log0.orders + Terms(Applicable(defaults[..j], cols), cols)
        invariant rawValues == raw0 + Echoes(Applicable(defaults[..j], cols))
      {
        OrderByDefault(tx, log0.orders, raw0, defaults, j, cols);
        j := j + 1;
      }
      assert defaults[..j] == defaults;
    }

    /**
      One step of OrderByDefaults: the default `defaults[j]` is ordered by and
      echoed when the whitelist knows its column, and skipped otherwise.
    */
    method OrderByDefault(tx: DB, ghost before: seq<string>, ghost raw0: seq<string>,
                          defaults: seq<SortItem>, j: nat, cols: map<string, string>)
      requires j < |defaults|
      requires tx.orders == before + Terms(Applicable(defaults[..j], cols), cols)
      requires rawValues == raw0 + Echoes(Applicable(defaults[..j], cols))
      modifies this`rawValues, tx
      ensures tx.wheres == old(tx.wheres) && tx.limit == old(tx.limit) && tx.offset == old(tx.offset)
      ensures tx.orders == before + Terms(Applicable(defaults[..j + 1], cols), cols)
      ensures rawValues == raw0 + Echoes(Applicable(defaults[..j + 1], cols))
    {
      var item := defaults[j];
      ghost var terms, echoes := Terms(Applicable(defaults[..j], cols), cols), Echoes(Applicable(defaults[..j], cols));
      DefaultStep(defaults, j, cols);
      if item.column in cols {
        OrderByColumn(tx, cols[item.column], item.desc);
        AppendAssoc(before, terms, [OrderTerm(cols[item.column], item.desc)]);
        // Always echo an applied default, so that the client sees the effective sort.
        if item.desc {
          rawValues := rawValues + ["-" + item.column];
        } else {
          rawValues := rawValues + [item.column];
        }
        AppendAssoc(raw0, echoes, [Echo(item)]);
      } else {
        AppendNil(terms);
        AppendNil(echoes);
      }
    }
  }

  /** One `tx.Order` call for a whitelisted column expression, in the requested direction. */
  method OrderByColumn(tx: DB, col: string, desc: bool)
    modifies tx
    ensures tx.wheres == old(tx.wheres) && tx.limit == old(tx.limit) && tx.offset == old(tx.offset)
    ensures tx.orders == old(tx.orders) + [OrderTerm(col, desc)]
  {
    if desc {
      tx.Order(col + DescSuffix);
    } else {
      tx.Order(col + AscSuffix);
    }
  }

  /**
    The first half of the sort filter: one term per user item in request
    order, stopping at the first column the whitelist does not know.
  */
  method OrderByItems(tx: DB, items: seq<SortItem>, cols: map<string, string>) returns (known: bool)
    modifies tx
    ensures known <==> KnownPrefix(items, cols) == |items|
    ensures tx.wheres == old(tx.wheres) && tx.limit == old(tx.limit) && tx.offset == old(tx.offset)
    ensures tx.orders == old(tx.orders) + Terms(items[..KnownPrefix(items, cols)], cols)
  {
    ghost var log0 := tx.Snapshot();
    AppendNil(log0.orders);
    var i := 0;
    while i < |items|
      invariant 0 <= i <= |items|
      invariant forall j :: 0 <= j < i ==> items[j].column in cols
      invariant tx.wheres == log0.wheres && tx.limit == log0.limit && tx.offset == log0.offset
      invariant tx.orders == log0.orders + Terms(items[..i], cols)
    {
      if items[i].column !in cols {
        assert KnownPrefix(items, cols) == i;
        return false;
      }
      OrderByItem(tx, log0.orders, items, i, cols);
      i := i + 1;
    }
    assert items[..i] == items;
    return true;
  }

  /** One step of OrderByItems: the term for the whitelisted user item `items[i]`. */
  method OrderByItem(tx: DB, ghost before: seq<string>, items: seq<SortItem>, i: nat, cols: map<string, string>)
    requires i < |items| && forall j :: 0 <= j <= i ==> items[j].column in cols
    requires tx.orders == before + Terms(items[..i], cols)
    modifies tx
    ensures tx.wheres == old(tx.wheres) && tx.limit == old(tx.limit) && tx.offset == old(tx.offset)
    ensures tx.orders == before + Terms(items[..i + 1], cols)
  {
    assert items[..i + 1] == items[..i] + [items[i]];
    TermsEchoesSnoc(items[..i], items[i], cols);
    OrderByColumn(tx, cols[items[i].column], items[i].desc);
    AppendAssoc(before, Terms(items[..i], cols), [OrderTerm(cols[items[i].column], items[i].desc)]);
  }

  /** The raw values of a set of filters, by filter. */
  function RawOf(fs: set<Filter>): (m: map<Filter, seq<string>>)
    reads fs
    ensures m.Keys == fs
    ensures forall f :: f in fs ==> m[f] == f.rawValues
  {
    map f | f in fs :: f.rawValues
  }

  /** The state ApplyFilters threads through the filters: the last error, the query log and every filter's raw values. */
  datatype State = State(err: Outcome, log: Log, raw: map<Filter, seq<string>>)

  /** Applies one filter to a state. */
  function Apply(f: Filter, s: State, args: Args): (r: State)
    requires f in s.raw
    ensures r.raw.Keys == s.raw.Keys
    ensures forall g :: g in s.raw && g != f ==> r.raw[g] == s.raw[g]
  {
    var st := Effect(f.kind, s.raw[f], s.log, args);
    State(st.err, st.log, s.raw[f := st.raw])
  }

  /**
    ApplyFilters as a function: walks the allowed names in order, applies the
    requested filter of each allowed name, and stops at the first error.
  */
  function Run(allowed: seq<string>, requested: map<string, Filter>, s: State, args: Args): (r: State)
    requires requested.Values <= s.raw.Keys
    ensures r.raw.Keys == s.raw.Keys
    decreases |allowed|
  {
    if allowed == [] then s
    else if allowed[0] !in requested then Run(allowed[1..], requested, s, args)
    else
      var next := Apply(requested[allowed[0]], s, args);
      if next.err.Err? then next else Run(allowed[1..], requested, next, args)
  }

  /** The filters ApplyFilters visits: the requested filter of each allowed name, in allowed order. */
  function Selected(allowed: seq<string>, requested: map<string, Filter>): (fs: seq<Filter>)
    ensures |fs| <= |allowed|
    ensures forall f :: f in fs ==> f in requested.Values
    decreases |allowed|
  {
    if allowed == [] then []
    else if allowed[0] in requested then [requested[allowed[0]]] + Selected(allowed[1..], requested)
    else Selected(allowed[1..], requested)
  }

  /** Applies a list of filters one after the other, stopping at the first error. */
  function RunSeq(fs: seq<Filter>, s: State, args: Args): (r: State)
    requires forall f :: f in fs ==> f in s.raw
    ensures r.raw.Keys == s.raw.Keys
    decreases |fs|
  {
    if fs == [] then s
    else
      var next := Apply(fs[0], s, args);
      if next.err.Err? then next else RunSeq(fs[1..], next, args)
  }

  /** ApplyFilters applies exactly the selected filters, in order, stopping at the first error. */
  lemma {:induction false} RunIsRunSeq(allowed: seq<string>, requested: map<string, Filter>, s: State, args: Args)
    requires requested.Values <= s.raw.Keys
    ensures Run(allowed, requested, s, args) == RunSeq(Selected(allowed, requested), s, args)
    decreases |allowed|
  {
    if allowed != [] {
      if allowed[0] !in requested {
        RunIsRunSeq(allowed[1..], requested, s, args);
      } else {
        var f := requested[allowed[0]];
        var next := Apply(f, s, args);
        var fs := Selected(allowed, requested);
        assert fs[0] == f && fs[1..] == Selected(allowed[1..], requested);
        if next.err.Ok? {
          RunIsRunSeq(allowed[1..], requested, next, args);
        }
      }
    }
  }

  /** A filter is selected exactly when some allowed name requests it. */
  lemma {:induction false} SelectedMembers(allowed: seq<string>, requested: map<string, Filter>, f: Filter)
    ensures f in Selected(allowed, requested) <==> exists i :: 0 <= i < |allowed| && allowed[i] in requested && requested[allowed[i]] == f
    decreases |allowed|
  {
    if allowed != [] {
      SelectedMembers(allowed[1..], requested, f);
      if f in Selected(allowed[1..], requested) {
        var i :| 0 <= i < |allowed[1..]| && allowed[1..][i] in requested && requested[allowed[1..][i]] == f;
        assert allowed[i + 1] == allowed[1..][i];
      }
      if exists i :: 0 <= i < |allowed| && allowed[i] in requested && requested[allowed[i]] == f {
        var i :| 0 <= i < |allowed| && allowed[i] in requested && requested[allowed[i]] == f;
        if i > 0 {
          assert allowed[1..][i - 1] == allowed[i];
        }
      }
    }
  }

  /** A requested name that is not allowed makes no difference: its filter is never applied. */
  lemma {:induction false} UnallowedIgnored(allowed: seq<string>, requested: map<string, Filter>, name: string)
    requires name !in allowed
    ensures Selected(allowed, requested) == Selected(allowed, requested - {name})
    decreases |allowed|
  {
    if allowed != [] {
      assert name !in allowed[1..];
      UnallowedIgnored(allowed[1..], requested, name);
    }
  }

  /** After a failing filter nothing else runs: running a + b is running a, then b only if a succeeded. */
  lemma {:induction false} RunSeqAppend(a: seq<Filter>, b: seq<Filter>, s: State, args: Args)
    requires s.err.Ok?
    requires forall f :: f in a + b ==> f in s.raw
    ensures forall f :: f in a ==> f in s.raw
    ensures forall f :: f in b ==> f in s.raw
    ensures
      var r := RunSeq(a, s, args);
      RunSeq(a + b, s, args) == if r.err.Err? then r else RunSeq(b, r, args)
    decreases |a|
  {
    assert forall f :: f in a ==> f in a + b;
    assert forall f :: f in b ==> f in a + b;
    if a != [] {
      assert (a + b)[0] == a[0] && (a + b)[1..] == a[1..] + b;
      var next := Apply(a[0], s, args);
      if next.err.Ok? {
        RunSeqAppend(a[1..], b, next, args);
      }
    } else {
      assert a + b == b;
    }
  }

  /** The only way ApplyFilters fails is an unknown sort column, so a sort filter is in the list. */
  lemma RunSeqErrors(fs: seq<Filter>, s: State, args: Args)
    requires s.err.Ok?
    requires forall f :: f in fs ==> f in s.raw
    ensures var r := RunSeq(fs, s, args);
      r.err.Err? ==> r.err == Err(InvalidSortColumn) && exists f :: f in fs && f.kind.Sort?
  {
    if RunSeq(fs, s, args).err.Err? {
      RunSeqFailingSort(fs, s, args);
      var i :| 0 <= i < |fs| && fs[i].kind.Sort? && FailsAt(fs, i, s, args) && RunSeq(fs, s, args).err == Err(InvalidSortColumn);
      assert fs[i] in fs;
    }
  }

  /**
    A failing run fails at a sort filter: the error is the one that sort
    filter returned, with "invalid sort column selected", applied to the
    successful run of the filters before it.
  */
  lemma RunSeqFailingSort(fs: seq<Filter>, s: State, args: Args)
    requires s.err.Ok?
    requires forall f :: f in fs ==> f in s.raw
    ensures var r := RunSeq(fs, s, args);
      r.err.Err? ==> exists i :: 0 <= i < |fs| && fs[i].kind.Sort? && FailsAt(fs, i, s, args) && r.err == Err(InvalidSortColumn)
  {
    if RunSeq(fs, s, args).err.Err? {
      RunSeqFailingPosition(fs, s, args);
      var i :| 0 <= i < |fs| && FailsAt(fs, i, s, args);
      assert forall f :: f in fs[..i] ==> f in fs;
      var before := RunSeq(fs[..i], s, args);
      EffectShape(fs[i].kind, before.raw[fs[i]], before.log, args);
    }
  }

  /** A failing run fails at some position: the filters before it succeed and the run ends in its state. */
  lemma {:induction false} RunSeqFailingPosition(fs: seq<Filter>, s: State, args: Args)
    requires s.err.Ok?
    requires forall f :: f in fs ==> f in s.raw
    ensures RunSeq(fs, s, args).err.Err? ==> exists i :: 0 <= i < |fs| && FailsAt(fs, i, s, args)
    decreases |fs|
  {
    if fs != [] {
      var next := Apply(fs[0], s, args);
      if next.err.Ok? {
        RunSeqFailingPosition(fs[1..], next, args);
        if RunSeq(fs[1..], next, args).err.Err? {
          var j :| 0 <= j < |fs[1..]| && FailsAt(fs[1..], j, next, args);
          FailsAtShift(fs, j, s, args);
        }
      } else {
        assert fs[..0] == [];
        assert FailsAt(fs, 0, s, args);
      }
    }
  }

  /** A failing position in the tail of a list, after a successful first filter, is one in the list. */
  lemma FailsAtShift(fs: seq<Filter>, j: nat, s: State, args: Args)
    requires j + 1 < |fs|
    requires forall f :: f in fs ==> f in s.raw
    requires Apply(fs[0], s, args).err.Ok?
    requires forall f :: f in fs[1..] ==> f in Apply(fs[0], s, args).raw
    requires FailsAt(fs[1..], j, Apply(fs[0], s, args), args)
    ensures fs[j + 1] == fs[1..][j]
    ensures FailsAt(fs, j + 1, s, args)
  {
    assert fs[..j + 1][0] == fs[0] && fs[..j + 1][1..] == fs[1..][..j];
  }

  /**
    The filters before position i all succeed, and running the whole list
    ends in the state filter i produces from them.
  */
  predicate FailsAt(fs: seq<Filter>, i: nat, s: State, args: Args)
    requires i < |fs|
    requires forall f :: f in fs ==> f in s.raw
  {
    assert forall f :: f in fs[..i] ==> f in fs;
    var before := RunSeq(fs[..i], s, args);
    before.err.Ok? && RunSeq(fs, s, args) == Apply(fs[i], before, args)
  }

  /**
    Applies the requested filters that the endpoint allows, in the allowed
    order, stopping at the first error.
  */
  method ApplyFilters(query: DB, allowed: seq<string>, requested: map<string, Filter>, args: Args) returns (err: Outcome)
    modifies query, requested.Values
    ensures
      var r := Run(allowed, requested, State(Ok, old(query.Snapshot()), old(RawOf(requested.Values))), args);
      && err == r.err
      && query.Snapshot() == r.log
      && RawOf(requested.Values) == r.raw
  {
    ghost var s0 := State(Ok, query.Snapshot(), RawOf(requested.Values));
    var i := 0;
    while i < |allowed|
      invariant 0 <= i <= |allowed|
      invariant Run(allowed, requested, s0, args)
             == Run(allowed[i..], requested, State(Ok, query.Snapshot(), RawOf(requested.Values)), args)
    {
      if allowed[i] in requested {
        err := ApplyRequested(requested[allowed[i]], query, requested.Values, args);
        if err.Err? {
          return err;
        }
      }
      assert allowed[i..][1..] == allowed[i + 1..];
      i := i + 1;
    }
    return Ok;
  }

  /** One step of ApplyFilters: applies one requested filter and says what that does to all of them. */
  method ApplyRequested(filter: Filter, query: DB, ghost fs: set<Filter>, args: Args) returns (err: Outcome)
    requires filter in fs
    modifies query, filter`rawValues
    ensures State(err, query.Snapshot(), RawOf(fs)) == Apply(filter, State(Ok, old(query.Snapshot()), old(RawOf(fs))), args)
  {
    ghost var raw0 := RawOf(fs);
    err := filter.ApplyQuery(query, args);
    assert RawOf(fs) == raw0[filter := filter.rawValues];
  }
}

=== FILE: query_log.dfy ===
/**
  An abstract stand-in for the gorm query builder that the filters write into.
  Building and running SQL is not modelled: a query is the log of the clauses
  added to it, in the order they were added.
*/
module QueryLog {
  import opened Wrappers

  /** `models.Severity` belongs to another package; only its identity matters here. */
  datatype SeverityLevel = SeverityLevel(name: string)

  /** A value bound to a `?` placeholder of a WHERE predicate. */
  datatype Param =
    | Text(text: string)
    | Time(instant: int)                  // a time.Time, as an opaque instant
    | Levels(levels: seq<SeverityLevel>)  // a slice bound to `IN ?`
    | Score(score: real)                  // a float32 score

  /** One `tx.Where(sql, params...)` call. */
  datatype Clause = Clause(sql: string, params: seq<Param>)

  /** Everything a filter can add to a query: WHERE predicates and ORDER terms in call order, LIMIT and OFFSET. */
  datatype Log = Log(wheres: seq<Clause>, orders: seq<string>, limit: Option<int>, offset: Option<int>)

  /** The query builder handed to the filters by reference; each call records itself. */
  class DB {
    var wheres: seq<Clause>
    var orders: seq<string>
    var limit: Option<int>
    var offset: Option<int>

    function Snapshot(): Log
      reads this
    {
      Log(wheres, orders, limit, offset)
    }

    constructor ()
      ensures Snapshot() == Log([], [], None, None)
    {
      wheres, orders, limit, offset := [], [], None, None;
    }

    /** `tx.Where`: adds a predicate after the ones already there. */
    method Where(c: Clause)
      modifies this
      ensures Snapshot() == old(Snapshot()).(wheres := old(wheres) + [c])
    {
      wheres := wheres + [c];
    }

    /** `tx.Order`: adds an ORDER BY term after the ones already there. */
    method Order(term: string)
      modifies this
      ensures Snapshot() == old(Snapshot()).(orders := old(orders) + [term])
    {
      orders := orders + [term];
    }

    /** `tx.Limit`: replaces the row limit. */
    method Limit(n: int)
      modifies this
      ensures Snapshot() == old(Snapshot()).(limit := Some(n))
    {
      limit := Some(n);
    }

    /** `tx.Offset`: replaces the row offset. */
    method Offset(n: int)
      modifies this
      ensures Snapshot() == old(Snapshot()).(offset := Some(n))
    {
      offset := Some(n);
    }
  }
}

=== FILE: seq_lemmas.dfy ===
/**
  Facts about sequence concatenation, stated once for any element type so that
  proofs about sequences of strings need not reason about the characters.
*/
module SeqLemmas {

  lemma AppendAssoc<T>(a: seq<T>, b: seq<T>, c: seq<T>)
    ensures (a + b) + c == a + (b + c)
  {
  }

  lemma AppendNil<T>(a: seq<T>)
    ensures a + [] == a && [] + a == a
  {
  }

  /** An element of the middle part of a three-part concatenation. */
  lemma IndexMiddle<T>(a: seq<T>, b: seq<T>, c: seq<T>, i: int)
    requires 0 <= i < |b|
    ensures (a + b + c)[|a| + i] == b[i]
  {
  }

  /** An element of the last part of a three-part concatenation. */
  lemma IndexLast<T>(a: seq<T>, b: seq<T>, c: seq<T>, j: int)
    requires 0 <= j < |c|
    ensures (a + b + c)[|a| + |b| + j] == c[j]
  {
  }
}

=== FILE: strings.dfy ===
/** The two pieces of Go's `strings` package the filters rely on: Join and, as its inverse, Split. */
module Strings {

  /** Go's `strings.Join(xs, sep)`: the elements separated by `sep`; the empty slice gives "". */
  function Join(xs: seq<string>, sep: string): (r: string)
    ensures xs == [] ==> r == ""
    ensures |xs| == 1 ==> r == xs[0]
    ensures |xs| >= 1 ==> |r| == TotalLength(xs) + (|xs| - 1) * |sep|
    decreases |xs|
  {
    if |xs| == 0 then ""
    else if |xs| == 1 then xs[0]
    else xs[0] + sep + Join(xs[1..], sep)
  }

  /** Sum of the lengths of the elements. */
  function TotalLength(xs: seq<string>): nat
    decreases |xs|
  {
    if xs == [] then 0 else |xs[0]| + TotalLength(xs[1..])
  }

  /** Index of the first occurrence of `c` in `s`, or `|s|` when there is none. */
  function IndexOf(s: string, c: char): (r: nat)
    ensures r <= |s|
    ensures r < |s| ==> s[r] == c
    ensures forall i :: 0 <= i < r ==> s[i] != c
    decreases |s|
  {
    if s == [] then 0
    else if s[0] == c then 0
    else 1 + IndexOf(s[1..], c)
  }

  /** Go's `strings.Split(s, sep)` for a one-character separator: never empty, "" gives [""]. */
  function Split(s: string, sep: char): (r: seq<string>)
    ensures |r| >= 1
    ensures forall i :: 0 <= i < |r| ==> sep !in r[i]
    decreases |s|
  {
    var i := IndexOf(s, sep);
    if i == |s| then [s] else [s[..i]] + Split(s[i + 1..], sep)
  }

  /** Splitting a comma-joined list of values that contain no comma gives the list back. */
  lemma {:induction false} SplitJoin(xs: seq<string>, sep: char)
    requires |xs| >= 1
    requires forall i :: 0 <= i < |xs| ==> sep !in xs[i]
    ensures Split(Join(xs, [sep]), sep) == xs
    decreases |xs|
  {
    if |xs| == 1 {
      assert IndexOf(xs[0], sep) == |xs[0]|;
    } else {
      var rest := Join(xs[1..], [sep]);
      var s := xs[0] + [sep] + rest;
      assert s == Join(xs, [sep]);
      IndexOfAfter(xs[0], sep, rest);
      assert s[..|xs[0]|] == xs[0];
      assert s[|xs[0]| + 1..] == rest;
      SplitJoin(xs[1..], sep);
      assert [xs[0]] + xs[1..] == xs;
    }
  }

  /** The first `c` in `a + [c] + b` is the one right after `a` when `a` holds none. */
  lemma IndexOfAfter(a: string, c: char, b: string)
    requires c !in a
    ensures IndexOf(a + [c] + b, c) == |a|
  {
    var s := a + [c] + b;
    assert s[|a|] == c;
  }
}

=== FILE: wrappers.dfy ===
/** Small failure-carrying datatypes shared by the other modules. */
module Wrappers {

  datatype Option<+T> = None | Some(value: T)

  /** Go's `error` return: `nil` (Ok) or an error carrying its message. */
  datatype Outcome = Ok | Err(message: string)
}
